=== FILE: README.md ===
# FaceCut face-centring core in Dafny

FaceCut crops a batch of photographs for a 1000 x 1000 canvas, aiming to put
the detected face of each one at a fixed size in the centre, then packs the
results into a ZIP archive. The placement is computed from the face box
corrected for the EXIF orientation but applied to the raw image, so for tags
2 to 8 the drawn face is in general not centred: only when the correction
maps the face's centre to itself. This project models the
geometric core of `frontend/src/App.js`, and the small loop and string
rewrite around it:

- **Orientation correction** (`Orientation`): the detected face box and the
  raw image extents are rewritten according to the EXIF orientation tag
  (CIPA DC-008, tag 0x0112). A missing tag counts as 1. `Normalize` runs the
  application's `switch` on six local variables with simultaneous
  destructuring swaps. `Corrected` states the same correction in closed form
  over the original values, and the lemmas are about `Corrected`. Every case
  is transcribed as written. None is re-derived from rotation geometry.
- **Placement solver** (`Centering`): face centre, `faceSize = max(width,
  height)`, `scale = target / faceSize`, and a translation that puts the face
  centre on the canvas centre plus the manual offset. The arithmetic uses
  exact `real`s. The target size (300) and the canvas size (1000, centre 500)
  are the fields of a `Config`.
- **One image** (`Crop`): no face means `NoFaceDetected`. Otherwise the box is
  corrected, the placement solved, and the whole raw image drawn at that
  placement (`Draw`, `CropImage`, and the method `ProcessImage`).
- **Batch loop** (`Batch`): `ProcessImages` walks the files in order. It keeps
  the result of every file that renders, in input order, skips a failing
  file, and records
  every progress value it sets, `Math.round((i + 1) / n * 100)`. What one file
  yields is the function parameter `process`.
- **Archive names** (`FileName`): `name.replace(/\.[^/.]+$/, "") + ".png"`.

Where the intended behaviour differs from what the code does, the model
follows the code:

- Under CIPA DC-008, codes 5 and 7 are reflections across the two diagonals,
  each its own inverse, and 6 and 8 are quarter turns in opposite
  directions. The code's formulas do not do this. Its codes 6 and 8 undo each other, but 5 and 7 do not undo
  themselves, and a box inside the raw image can leave the corrected image
  under codes 5, 6 and 8 when it is not square, and under code 7 even when it
  is square.
- The face is meant to be drawn centred. For tags 2 to 8 the drawn face is
  in general not centred: only when the correction maps the face's centre to
  itself. The placement centres the corrected box, but `drawImage` draws the
  raw image. `Crop.QuarterTurnScenario` shows a face drawn at (575, 225)
  instead of (500, 500), and `Crop.MirroredFaceCentredIff` shows that under
  tag 2 the face is centred exactly when its centre lies on the image's
  vertical centre line. Without a correction the drawn face is centred
  (`Crop.UncorrectedFaceIsCentred`).
- The size check the code makes is on `width * faceScale`, not on
  `faceSize * faceScale`. It holds exactly when the width is the larger side.
- Any tag other than 2 to 8 leaves the box unchanged, not just 1.

## Model

| member | source | states |
|---|---|---|
| `Orientation.OrientationCode` | frontend/src/App.js:77-81 | a missing tag, or the falsy tag 0, becomes code 1; any other tag is used as it is |
| `Orientation.Corrected` | frontend/src/App.js:85-123 | box extents and image extents are exchanged for codes 5 to 8 and kept for every other code; positive box extents stay positive; codes outside 2 to 8 change nothing |
| `Orientation.Normalize` | frontend/src/App.js:85-123 | the switch with its step-by-step simultaneous swaps yields exactly the closed-form correction `Corrected` |
| `Orientation.ReflectionsAreInvolutions` | frontend/src/App.js:91-100 | applying code 2, 3 or 4 twice returns the original box and image extents |
| `Orientation.FiveAndEightAgree` | frontend/src/App.js:101-120 | codes 5 and 8 produce the same corrected box and extents for every input |
| `Orientation.SixAndEightAreInverse` | frontend/src/App.js:106-120 | code 8 undoes code 6 and code 6 undoes code 8, for every box and image |
| `Orientation.SevenTwiceShiftsCorner` | frontend/src/App.js:111-115 | code 7 applied twice restores the extents but moves the corner by (height, -width) |
| `Orientation.FiveTwiceReflectsCorner` | frontend/src/App.js:101-105 | code 5 applied twice reflects the corner through the image centre with exchanged extents; on a square box it equals code 3 |
| `Orientation.ReflectionsKeepBoxInside` | frontend/src/App.js:90-100 | for codes other than 5 to 8, any box inside the raw image stays inside the corrected image |
| `Orientation.QuarterTurnsKeepSquareBoxInside` | frontend/src/App.js:101-120 | for codes 5, 6 and 8, a square box inside the raw image stays inside the corrected image |
| `Orientation.SomeBoxesLeaveCorrectedImage` | frontend/src/App.js:101-120 | a non-square box under codes 5, 6 and 8, and a square box under code 7, can leave the corrected image although they lie inside the raw image |
| `Centering.CanvasCenter` | frontend/src/App.js:153 | the canvas centre is as far from the canvas's far edge as from its origin (500 for the 1000-pixel canvas) |
| `Centering.FaceCenter` | frontend/src/App.js:132-133 | the face centre is as far from the box's right and bottom edges as from its left and top edges, and strictly inside a box of positive size |
| `Centering.FaceSize` | frontend/src/App.js:134 | the face size is the larger of the box's width and height |
| `Centering.Solve` | frontend/src/App.js:131-159 | the scaled face size equals the target size; the scale is positive when the target is; the mapped face centre is the canvas centre plus the offset |
| `Centering.ScaledSidesWithinTarget` | frontend/src/App.js:167-180 | each scaled side is at most the target; the checked `width * faceScale == 300` holds if and only if width >= height |
| `Centering.OffsetShiftsTranslation` | frontend/src/App.js:154-155 | the offset leaves the scale alone and adds itself, unclamped, to the zero-offset translation |
| `Centering.FaceRegionCentred` | frontend/src/App.js:153-159 | with no offset the mapped face box is symmetric about the canvas centre and its larger side is the target size |
| `Centering.DefaultPlacement` | frontend/src/App.js:135-155 | with the constants 300 and 1000 the scaled face size is 300 and the face centre lands at (500, 500) plus the offset |
| `Centering.SquareFaceScenario` | frontend/src/App.js:131-155 | a 200 x 200 face at (100, 100) gives scale 1.5 and translation (200, 200) |
| `Crop.Draw` | frontend/src/App.js:131-188 | the given (corrected) box scales to 300 pixels and its centre maps to (500, 500) plus the offset; the destination rectangle starts at the translation and is sized from the RAW image extents times the scale |
| `Crop.CropImage` | frontend/src/App.js:68-123 | the image fails if and only if no face was detected, and the failure is `NoFaceDetected` |
| `Crop.ProcessImage` | frontend/src/App.js:68-195 | the imperative pipeline (detect check, switch, placement, draw) yields exactly `CropImage` |
| `Crop.CroppedFaceIsCentred` | frontend/src/App.js:174-182 | for every detected face and tag, the corrected box scales to 300 pixels and its centre maps to (500, 500) plus the offset |
| `Crop.UncorrectedFaceIsCentred` | frontend/src/App.js:85-188 | when no correction applies (tag missing, 1 or outside 2 to 8), the raw face as drawn is 300 pixels large and centred at (500, 500) plus the offset |
| `Crop.MirroredFaceCentredIff` | frontend/src/App.js:90-188 | under tag 2 the raw face as drawn is centred at (500, 500) plus the offset if and only if its centre lies on the raw image's vertical centre line |
| `Crop.QuarterTurnScenario` | frontend/src/App.js:106-155 | a face at (100, 50), 80 x 120, in a 400 x 600 image tagged 6 is corrected to (50, 180), 120 x 80, in 600 x 400, and drawn at scale 2.5 from (225, -50); the corrected box's centre maps to (500, 500) but the raw face centre is drawn at (575, 225) |
| `Batch.Successes` | frontend/src/App.js:44-58 | the kept results are never more than the files |
| `Batch.Round` | frontend/src/App.js:55 | `Math.round`: the value is at most half a unit below the result and strictly less than half a unit above it (`n - 1/2 <= q < n + 1/2`), so halves round up |
| `Batch.Progress` | frontend/src/App.js:55 | the percentage is the finished fraction times 100 rounded to the nearest integer, halves upwards |
| `Batch.ProcessImages` | frontend/src/App.js:37-60 | nothing runs without a loaded model or with no files; when it does not run its outputs carry no update; otherwise the results are the rendered files in order, progress starts at 0 and after file i is `round(i / n * 100)` |
| `Batch.SuccessesAppend` | frontend/src/App.js:44-56 | results of a split batch are the first part's results followed by the second's |
| `Batch.SuccessesMembership` | frontend/src/App.js:44-54 | a result is kept if and only if some file with that name rendered to that URL |
| `Batch.AllRenderedKeepsAll` | frontend/src/App.js:44-51 | when every file renders there is one result per file, in order, with that file's name and URL |
| `Batch.FailureSkipsOnlyThatFile` | frontend/src/App.js:46-54 | a failing file drops out and the batch otherwise yields what it yields without that file |
| `Batch.OneFailureInBatch` | frontend/src/App.js:44-58 | N files of which exactly one fails yield N - 1 results |
| `Batch.ProgressMonotone` | frontend/src/App.js:55 | progress does not decrease as more files finish |
| `Batch.ProgressBounds` | frontend/src/App.js:55 | progress lies within 0 to 100 and is exactly 100 once all files are finished |
| `Batch.RunProgressIsMonotone` | frontend/src/App.js:41-56 | the sequence of values set during a run stays within 0 to 100, never decreases and ends at 100 |
| `FileName.PlainSuffixLength` | frontend/src/App.js:224 | the longest suffix free of `/` and `.`: all its characters are such, and the character before it is not |
| `FileName.ExtensionPosition` | frontend/src/App.js:224 | the pattern `\.[^/.]+$` can match only at the dot right before that suffix |
| `FileName.StripExtension` | frontend/src/App.js:224 | where the pattern matches at i the name is cut to its first i characters; where it matches nowhere the name is unchanged |
| `FileName.OutputName` | frontend/src/App.js:224 | the archive name ends in `.png` and is the stem before the final extension, or the whole name when there is none, followed by `.png` |
| `FileName.StripOutputName` | frontend/src/App.js:224 | stripping the extension of an output name gives the original stem back |
| `FileName.OutputNameIdempotent` | frontend/src/App.js:224 | renaming an output name again changes nothing |
| `FileName.StrippedAtLastDot` | frontend/src/App.js:224 | when a cut is made it is at a dot, and no dot follows it |
| `FileName.ExampleDottedStem` | frontend/src/App.js:224 | `a.b.jpg` becomes `a.b.png` |
| `FileName.ExampleNoDot` | frontend/src/App.js:224 | `name` becomes `name.png` |
| `FileName.ExampleTrailingDot` | frontend/src/App.js:224 | `name.` becomes `name..png` |
| `FileName.ExampleHiddenFile` | frontend/src/App.js:224 | `.profile` becomes `.png` |
| `FileName.ExampleDotInDirectory` | frontend/src/App.js:224 | `photos.v2/face` becomes `photos.v2/face.png` |

## Left out

- Face detection (`faceapi.detectSingleFace`) is an external model. Its result is the parameter `detection`, an optional box with positive extents.
- EXIF reading (`EXIF.getData`, `getTag`) is an external library. The tag is the parameter `tag`.
- Image decoding, object URLs, canvas creation, pixel drawing and `toDataURL` are rendering and I/O. The model stops at the placement and the destination rectangle of `drawImage`. The load error of an image appears only as the `DecodeFailure` outcome of a file.
- JSZip, `saveAs` and base64 packaging are external libraries. Only the entry name is modelled.
- React state, hooks, the dropzone, model loading and the JSX are UI. The setters of `processImages` become the outputs of `Batch.ProcessImages`. `setIsProcessing` is not modelled.
- `console.log` and `console.assert` are side effects. The facts the asserts check are lemmas.
- IEEE-754 rounding and the tolerances of 1 and 2 pixels are left out. All arithmetic is exact, so the checked quantities are equalities.
- Promise and async sequencing is left out. The batch is a sequential loop in which each file's outcome is already known.
- Centering.Solve: requires a face box whose larger side is positive. With a zero-sized box the application divides by zero and draws with an infinite scale, which reals cannot express.
- Crop.CropImage: requires the detected box to have positive extents, as every box the detector reports does.
- Crop.ProcessImage: requires the detected box to have positive extents, as every box the detector reports does.
- Crop.Draw: requires a face box whose larger side is positive, as `Centering.Solve` does.
- Batch.Round: models `Math.round` on the exact quotient, not on its floating-point value.
- frontend/config-overrides.js is a build configuration with no logic and is not part of this model.

=== FILE: batch.dfy ===
/** The batch loop `processImages` (frontend/src/App.js): every uploaded file
    in order, a result kept for each one that renders, a failing file skipped,
    and the progress percentage set after each file. What one file yields is
    abstracted as the function `process`; the React state setters become the
    method's outputs, with every value passed to `setProgress` recorded in
    order. */
module Batch {
  import opened Crop

  /** An uploaded file: its name and its bytes. */
  datatype File = File(name: string, data: seq<bv8>)

  /** What `processImage` settles to for one file: the data URL of the
      rendered canvas, or the failure it was rejected with. */
  datatype Outcome = Rendered(url: string) | Failed(error: Error)

  datatype ProcessedImage = ProcessedImage(originalName: string, url: string)

  /** The results kept for `files`, in input order: one per rendered file. */
  function Successes(files: seq<File>, process: File -> Outcome): (r: seq<ProcessedImage>)
    ensures |r| <= |files|
  {
    if files == [] then []
    else
      var rest := Successes(files[..|files| - 1], process);
      var last := files[|files| - 1];
      match process(last)
      case Rendered(url) => rest + [ProcessedImage(last.name, url)]
      case Failed(_) => rest
  }

  /** `Math.round`: the nearest integer, halves rounded upwards. */
  function Round(q: real): (n: int)
    ensures n as real <= q + 0.5 < n as real + 1.0
  {
    (q + 0.5).Floor
  }

  /** The percentage shown once `done` of `total` files are finished: the
      finished fraction times 100, rounded to the nearest integer, halves
      upwards. */
  function Progress(done: nat, total: nat): (p: int)
    requires total > 0
    ensures var q := done as real / total as real * 100.0;
      p as real - 0.5 <= q < p as real + 0.5
  {
    Round(done as real / total as real * 100.0)
  }

  /** Runs the batch. Nothing happens unless the model is loaded and at least
      one file is uploaded: then `ran` is false and the outputs carry no
      update at all (the application's state keeps its previous results and
      progress; the empty sequences are not a reset). Otherwise progress is
      reset to 0, then set after every file, and the kept results, which
      replace the previous ones, are those of the rendered files. */
  method ProcessImages(files: seq<File>, process: File -> Outcome, modelLoaded: bool)
    returns (ran: bool, results: seq<ProcessedImage>, progressUpdates: seq<int>)
    ensures ran <==> modelLoaded && |files| > 0
    ensures !ran ==> results == [] && progressUpdates == []
    ensures ran ==> results == Successes(files, process)
    ensures ran ==> |progressUpdates| == |files| + 1 && progressUpdates[0] == 0
    ensures ran ==> forall k :: 0 < k <= |files| ==> progressUpdates[k] == Progress(k, |files|)
  {
    if !modelLoaded || |files| == 0 {
      return false, [], [];
    }
    ran := true;
    progressUpdates := [0];
    var newProcessedImages := [];
    for i := 0 to |files|
      invariant newProcessedImages == Successes(files[..i], process)
      invariant |progressUpdates| == i + 1 && progressUpdates[0] == 0
      invariant forall k :: 0 < k <= i ==> progressUpdates[k] == Progress(k, |files|)
    {
      var file := files[i];
      assert files[..i + 1][..i] == files[..i];
      match process(file) {
        case Rendered(url) =>
          newProcessedImages := newProcessedImages + [ProcessedImage(file.name, url)];
        case Failed(_) =>
      }
      progressUpdates := progressUpdates + [Progress(i + 1, |files|)];
    }
    assert files[..|files|] == files;
    results := newProcessedImages;
  }

  /** The results of a split batch are the results of its first part followed
      by those of its second: earlier files' results come first. */
  lemma {:induction false} SuccessesAppend(first: seq<File>, second: seq<File>, process: File -> Outcome)
    ensures Successes(first + second, process) == Successes(first, process) + Successes(second, process)
    decreases |second|
  {
    if second == [] {
      assert first + second == first;
    } else {
      var init := second[..|second| - 1];
      assert (first + second)[..|first + second| - 1] == first + init;
      SuccessesAppend(first, init, process);
    }
  }

  /** A result is kept exactly when some file of that name rendered to that
      URL. */
  lemma {:induction false} SuccessesMembership(files: seq<File>, process: File -> Outcome, p: ProcessedImage)
    ensures p in Successes(files, process) <==>
      exists i :: 0 <= i < |files| && files[i].name == p.originalName && process(files[i]) == Rendered(p.url)
  {
    if files != [] {
      var init := files[..|files| - 1];
      SuccessesMembership(init, process, p);
      if exists i :: 0 <= i < |files| && files[i].name == p.originalName && process(files[i]) == Rendered(p.url) {
        var i :| 0 <= i < |files| && files[i].name == p.originalName && process(files[i]) == Rendered(p.url);
        if i < |files| - 1 {
          assert init[i] == files[i];
        }
      }
    }
  }

  /** When every file renders, there is one result per file, each carrying
      that file's name and URL. */
  lemma {:induction false} AllRenderedKeepsAll(files: seq<File>, process: File -> Outcome)
    requires forall i :: 0 <= i < |files| ==> process(files[i]).Rendered?
    ensures |Successes(files, process)| == |files|
    ensures forall i :: 0 <= i < |files| ==>
      Successes(files, process)[i] == ProcessedImage(files[i].name, process(files[i]).url)
  {
    if files != [] {
      var init := files[..|files| - 1];
      forall i | 0 <= i < |init| ensures process(init[i]).Rendered? {
        assert init[i] == files[i];
      }
      AllRenderedKeepsAll(init, process);
    }
  }

  /** A failing file is skipped and nothing else is: the batch yields what
      the batch without that file yields. */
  lemma FailureSkipsOnlyThatFile(before: seq<File>, failed: File, after: seq<File>, process: File -> Outcome)
    requires process(failed).Failed?
    ensures Successes(before + [failed] + after, process) == Successes(before + after, process)
  {
    SuccessesAppend(before + [failed], after, process);
    SuccessesAppend(before, [failed], process);
    assert [failed][..0] == [];
    SuccessesAppend(before, after, process);
  }

  /** A batch of N files of which only one fails yields N - 1 results. */
  lemma OneFailureInBatch(before: seq<File>, failed: File, after: seq<File>, process: File -> Outcome)
    requires process(failed).Failed?
    requires forall i :: 0 <= i < |before| ==> process(before[i]).Rendered?
    requires forall i :: 0 <= i < |after| ==> process(after[i]).Rendered?
    ensures |Successes(before + [failed] + after, process)| == |before + [failed] + after| - 1
  {
    FailureSkipsOnlyThatFile(before, failed, after, process);
    var rest := before + after;
    forall i | 0 <= i < |rest| ensures process(rest[i]).Rendered? {
      if i < |before| {
        assert rest[i] == before[i];
      } else {
        assert rest[i] == after[i - |before|];
      }
    }
    AllRenderedKeepsAll(rest, process);
  }

  /** Progress never goes down as more files finish. */
  lemma ProgressMonotone(done: nat, later: nat, total: nat)
    requires 0 < total && done <= later
    ensures Progress(done, total) <= Progress(later, total)
  {
    var q1 := done as real / total as real * 100.0;
    var q2 := later as real / total as real * 100.0;
    assert done as real / total as real <= later as real / total as real;
    assert q1 <= q2;
  }

  /** Progress stays within 0 to 100 and is exactly 100 once every file is
      finished. */
  lemma ProgressBounds(done: nat, total: nat)
    requires 0 < total && done <= total
    ensures 0 <= Progress(done, total) <= 100
    ensures done == total ==> Progress(done, total) == 100
  {
    if done == total {
      assert done as real / total as real == 1.0;
    }
  }

  /** Every value the batch passes to `setProgress` is within 0 to 100, the
      sequence never decreases, and it ends at 100. */
  lemma RunProgressIsMonotone(total: nat, progressUpdates: seq<int>)
    requires total > 0 && |progressUpdates| == total + 1 && progressUpdates[0] == 0
    requires forall k :: 0 < k <= total ==> progressUpdates[k] == Progress(k, total)
    ensures forall k :: 0 <= k <= total ==> 0 <= progressUpdates[k] <= 100
    ensures forall j, k :: 0 <= j <= k <= total ==> progressUpdates[j] <= progressUpdates[k]
    ensures progressUpdates[total] == 100
  {
    forall k | 0 < k <= total ensures 0 <= progressUpdates[k] <= 100 {
      ProgressBounds(k, total);
    }
    forall j, k | 0 <= j <= k <= total ensures progressUpdates[j] <= progressUpdates[k] {
      if 0 < j {
        ProgressMonotone(j, k, total);
      } else {
        ProgressBounds(k, total);
      }
    }
    ProgressBounds(total, total);
  }
}

=== FILE: centering.dfy ===
/** The placement solver of `processImage` (frontend/src/App.js): the scale and
    translation that draw the whole image so that the corrected face box is
    centred on the output canvas and its larger side has the target size.

    The application writes the target face size (300) and the canvas centre
    (500, half of the 1000-pixel canvas) as literals; here they are the fields
    of a `Config`, and `DefaultConfig` holds the application's values. The
    arithmetic is exact: the application's tolerances of 1 and 2 pixels become
    equalities. */
module Centering {
  import opened Geometry

  datatype Config = Config(targetFaceSize: real, canvasSize: real)

  /** The application's constants: a 300-pixel face on a 1000 x 1000 canvas. */
  const DefaultConfig := Config(300.0, 1000.0)

  /** The manual offset the user sets with the sliders; (0, 0) by default. */
  datatype Offset = Offset(x: real, y: real)

  const NoOffset := Offset(0.0, 0.0)

  datatype Point = Point(x: real, y: real)

  /** How the original image is drawn: scaled uniformly by `scale`, its
      top-left corner at `(translateX, translateY)` on the canvas. */
  datatype Placement = Placement(scale: real, translateX: real, translateY: real)

  /** The canvas centre, on both axes: as far from the canvas's far edge as
      from its origin. */
  function CanvasCenter(cfg: Config): (c: real)
    ensures c - 0.0 == cfg.canvasSize - c
  {
    cfg.canvasSize / 2.0
  }

  /** The centre of a box: as far from its right and bottom edges as from its
      left and top edges, and strictly inside a box of positive size. */
  function FaceCenter(b: Box): (c: Point)
    ensures c.x - b.x == (b.x + b.width) - c.x
    ensures c.y - b.y == (b.y + b.height) - c.y
    ensures b.HasPositiveSize() ==> b.x < c.x < b.x + b.width && b.y < c.y < b.y + b.height
  {
    Point(b.x + b.width / 2.0, b.y + b.height / 2.0)
  }

  /** The larger of the box's two extents. */
  function FaceSize(b: Box): (s: real)
    ensures s >= b.width && s >= b.height
    ensures s == b.width || s == b.height
  {
    if b.width >= b.height then b.width else b.height
  }

  /** Where a canvas-independent point of the original image lands. */
  function MapPoint(p: Placement, q: Point): Point {
    Point(p.translateX + q.x * p.scale, p.translateY + q.y * p.scale)
  }

  /** The placement for a corrected face box. The scaled larger side equals
      the target size, and the face centre, mapped by the placement, lands on
      the canvas centre moved by the manual offset. */
  function Solve(b: Box, cfg: Config, offset: Offset): (p: Placement)
    requires FaceSize(b) > 0.0
    ensures FaceSize(b) * p.scale == cfg.targetFaceSize
    ensures cfg.targetFaceSize > 0.0 ==> p.scale > 0.0
    ensures MapPoint(p, FaceCenter(b)) ==
      Point(CanvasCenter(cfg) + offset.x, CanvasCenter(cfg) + offset.y)
  {
    var center := FaceCenter(b);
    var scale := cfg.targetFaceSize / FaceSize(b);
    Placement(scale,
              CanvasCenter(cfg) - center.x * scale + offset.x,
              CanvasCenter(cfg) - center.y * scale + offset.y)
  }

  /** Each scaled side is at most the target size, and the width check the
      application performs (`width * faceScale` equal to 300) holds exactly
      when the width is the larger side. */
  lemma ScaledSidesWithinTarget(b: Box, cfg: Config, offset: Offset)
    requires b.HasPositiveSize() && cfg.targetFaceSize > 0.0
    ensures b.width * Solve(b, cfg, offset).scale <= cfg.targetFaceSize
    ensures b.height * Solve(b, cfg, offset).scale <= cfg.targetFaceSize
    ensures b.width * Solve(b, cfg, offset).scale == cfg.targetFaceSize <==> b.width >= b.height
  {
  }

  /** The manual offset is added after centring and is not clamped: the
      translation is the zero-offset translation plus the offset. */
  lemma OffsetShiftsTranslation(b: Box, cfg: Config, offset: Offset)
    requires FaceSize(b) > 0.0
    ensures Solve(b, cfg, offset).scale == Solve(b, cfg, NoOffset).scale
    ensures Solve(b, cfg, offset).translateX == Solve(b, cfg, NoOffset).translateX + offset.x
    ensures Solve(b, cfg, offset).translateY == Solve(b, cfg, NoOffset).translateY + offset.y
  {
  }

  /** With no offset the face box, mapped by the placement, is a box centred on
      the canvas whose larger side is the target size. */
  lemma FaceRegionCentred(b: Box, cfg: Config)
    requires b.HasPositiveSize() && cfg.targetFaceSize > 0.0
    ensures var p := Solve(b, cfg, NoOffset);
      var topLeft := MapPoint(p, Point(b.x, b.y));
      var bottomRight := MapPoint(p, Point(b.x + b.width, b.y + b.height));
      && topLeft.x + bottomRight.x == cfg.canvasSize
      && topLeft.y + bottomRight.y == cfg.canvasSize
      && FaceSize(Box(topLeft.x, topLeft.y, bottomRight.x - topLeft.x, bottomRight.y - topLeft.y))
         == cfg.targetFaceSize
  {
  }

  /** With the application's constants the face's larger side becomes 300
      pixels and its centre lands at (500, 500) moved by the offset. */
  lemma DefaultPlacement(b: Box, offset: Offset)
    requires FaceSize(b) > 0.0
    ensures FaceSize(b) * Solve(b, DefaultConfig, offset).scale == 300.0
    ensures MapPoint(Solve(b, DefaultConfig, offset), FaceCenter(b)) == Point(500.0 + offset.x, 500.0 + offset.y)
  {
  }

  /** A 200 x 200 face at (100, 100) with the application's constants is drawn
      at scale 1.5 with its image corner at (200, 200). */
  lemma SquareFaceScenario()
    ensures Solve(Box(100.0, 100.0, 200.0, 200.0), DefaultConfig, NoOffset)
         == Placement(1.5, 200.0, 200.0)
  {
  }
}

=== FILE: crop.dfy ===
/** One image through `processImage` (frontend/src/App.js): the detected face
    box, the orientation tag and the raw image extents in; the placement and
    the destination rectangle of the single `drawImage` call out, or the
    `NoFaceDetected` failure. Face detection, EXIF reading, decoding and
    rasterisation are outside the model: their results are parameters. */
module Crop {
  import opened Wrappers
  import opened Geometry
  import opened Orientation
  import opened Centering

  /** Why one image produces no output. `DecodeFailure` stands for the image's
      own load error (`img.onerror`), which arises outside the geometry. */
  datatype Error = NoFaceDetected | DecodeFailure

  /** What is drawn: the placement and the destination rectangle handed to
      `drawImage` for the whole original image. */
  datatype Render = Render(placement: Placement, dest: Box)

  /** The placement and the draw call for a corrected face box: the box's
      larger side scales to 300 pixels, the box's centre maps to the canvas
      centre (500, 500) moved by the manual offset, and the whole image is
      drawn from the placement's corner at the placement's scale, sized from
      the RAW image extents `raw`. The placement is computed in corrected
      coordinates but applied to the raw image. */
  function Draw(box: Box, raw: Dims, offset: Offset): (r: Render)
    requires FaceSize(box) > 0.0
    ensures FaceSize(box) * r.placement.scale == 300.0
    ensures MapPoint(r.placement, FaceCenter(box)) == Point(500.0 + offset.x, 500.0 + offset.y)
    ensures r.dest == Box(r.placement.translateX, r.placement.translateY,
                          raw.width * r.placement.scale, raw.height * r.placement.scale)
  {
    var p := Solve(box, DefaultConfig, offset);
    DefaultPlacement(box, offset);
    Render(p, Box(p.translateX, p.translateY, raw.width * p.scale, raw.height * p.scale))
  }

  /** The result of one image: no face fails the image; otherwise the face
      box is corrected for orientation and the image drawn around it. */
  function CropImage(detection: Option<Box>, tag: Option<int>, raw: Dims, offset: Offset): (r: Result<Render, Error>)
    requires detection.Some? ==> detection.value.HasPositiveSize()
    ensures r.Failure? <==> detection.None?
    ensures r.Failure? ==> r.error == NoFaceDetected
  {
    match detection
    case None => Failure(NoFaceDetected)
    case Some(face) => Success(Draw(Corrected(face, raw, OrientationCode(tag)).box, raw, offset))
  }

  /** `processImage` as the application runs it: the switch of `Normalize`
      on local variables, then the placement and the draw call. */
  method ProcessImage(detection: Option<Box>, tag: Option<int>, raw: Dims, offset: Offset)
    returns (r: Result<Render, Error>)
    requires detection.Some? ==> detection.value.HasPositiveSize()
    ensures r == CropImage(detection, tag, raw, offset)
  {
    if detection.None? {
      return Failure(NoFaceDetected);
    }
    var orientation := OrientationCode(tag);
    var box, dims := Normalize(detection.value, raw, orientation);
    assert box == Corrected(detection.value, raw, orientation).box;
    r := Success(Draw(box, raw, offset));
  }

  /** The quantities the application checks: the CORRECTED face box, put
      through the placement, has its larger side at 300 pixels and its centre
      at the canvas centre moved by the manual offset. Where the face pixels
      of the raw image land is another matter: see the two lemmas below. */
  lemma CroppedFaceIsCentred(face: Box, tag: Option<int>, raw: Dims, offset: Offset)
    requires face.HasPositiveSize()
    ensures var o := Corrected(face, raw, OrientationCode(tag));
      var r := CropImage(Some(face), tag, raw, offset);
      && r.Success?
      && FaceSize(o.box) * r.value.placement.scale == 300.0
      && MapPoint(r.value.placement, FaceCenter(o.box)) == Point(500.0 + offset.x, 500.0 + offset.y)
  {
  }

  /** With no correction (tag missing, 1, or outside 2 to 8) the corrected
      box is the raw box, so the face as drawn from the raw image is centred
      at the canvas centre moved by the offset. */
  lemma UncorrectedFaceIsCentred(face: Box, tag: Option<int>, raw: Dims, offset: Offset)
    requires face.HasPositiveSize() && !(2 <= OrientationCode(tag) <= 8)
    ensures var r := CropImage(Some(face), tag, raw, offset);
      && r.Success?
      && FaceSize(face) * r.value.placement.scale == 300.0
      && MapPoint(r.value.placement, FaceCenter(face)) == Point(500.0 + offset.x, 500.0 + offset.y)
  {
    CroppedFaceIsCentred(face, tag, raw, offset);
  }

  /** Under tag 2 (a mirror across the vertical axis) the face as drawn from
      the raw image is centred exactly when its centre lies on the raw image's
      vertical centre line, the one place the mirror leaves unmoved. */
  lemma MirroredFaceCentredIff(face: Box, raw: Dims, offset: Offset)
    requires face.HasPositiveSize()
    ensures var r := CropImage(Some(face), Some(2), raw, offset);
      && r.Success?
      && (MapPoint(r.value.placement, FaceCenter(face)) == Point(500.0 + offset.x, 500.0 + offset.y)
          <==> face.x + face.width / 2.0 == raw.width / 2.0)
  {
    var o := Corrected(face, raw, 2);
    var r := CropImage(Some(face), Some(2), raw, offset);
    var p := r.value.placement;
    assert o.box == Box(raw.width - (face.x + face.width), face.y, face.width, face.height);
    assert p.scale > 0.0;
    assert MapPoint(p, FaceCenter(o.box)) == Point(500.0 + offset.x, 500.0 + offset.y);
    var shift := FaceCenter(face).x - FaceCenter(o.box).x;
    assert MapPoint(p, FaceCenter(face)).x == 500.0 + offset.x + shift * p.scale;
    assert shift == 2.0 * (face.x + face.width / 2.0 - raw.width / 2.0);
  }

  /** An 80 x 120 face at (100, 50) in a 400 x 600 image tagged 6: the
      corrected image is 600 x 400, the corrected face 120 x 80 at (50, 180),
      and the image is drawn at scale 2.5 from (225, -50). The corrected box's
      centre maps to (500, 500), but the placement is applied to the raw
      image, whose face centre (140, 110) is drawn at (575, 225): the drawn
      face is not centred. */
  lemma QuarterTurnScenario()
    ensures Corrected(Box(100.0, 50.0, 80.0, 120.0), Dims(400.0, 600.0), 6)
         == Oriented(Box(50.0, 180.0, 120.0, 80.0), Dims(600.0, 400.0))
    ensures Solve(Box(50.0, 180.0, 120.0, 80.0), DefaultConfig, NoOffset)
         == Placement(2.5, 225.0, -50.0)
    ensures var r := CropImage(Some(Box(100.0, 50.0, 80.0, 120.0)), Some(6), Dims(400.0, 600.0), NoOffset);
      && r.Success?
      && MapPoint(r.value.placement, FaceCenter(Box(50.0, 180.0, 120.0, 80.0))) == Point(500.0, 500.0)
      && MapPoint(r.value.placement, FaceCenter(Box(100.0, 50.0, 80.0, 120.0))) == Point(575.0, 225.0)
  {
  }
}

=== FILE: filename.dfy ===
/** The name each cropped image gets in the ZIP archive (`downloadZIP`,
    frontend/src/App.js): the original name with `/\.[^/.]+$/` replaced by
    nothing, then `.png` appended. The pattern matches a dot followed by one
    or more characters that are neither `/` nor `.`, running to the end of
    the name. */
module FileName {

  const PngSuffix := ".png"

  /** A character that `[^/.]` accepts. */
  predicate IsExtensionChar(c: char) {
    c != '/' && c != '.'
  }

  /** The pattern `\.[^/.]+$` matches `name[i..]`. */
  ghost predicate ExtensionAt(name: string, i: int) {
    && 0 <= i < |name| - 1
    && name[i] == '.'
    && forall j :: i < j < |name| ==> IsExtensionChar(name[j])
  }

  /** The length of the longest suffix made only of extension characters. */
  function PlainSuffixLength(s: string): (k: nat)
    ensures k <= |s|
    ensures forall j :: |s| - k <= j < |s| ==> IsExtensionChar(s[j])
    ensures k < |s| ==> !IsExtensionChar(s[|s| - k - 1])
  {
    if |s| == 0 || !IsExtensionChar(s[|s| - 1]) then 0
    else 1 + PlainSuffixLength(s[..|s| - 1])
  }

  /** Where the pattern matches, if anywhere: only at the dot that precedes the
      longest plain suffix, and only when that suffix is not empty. */
  lemma ExtensionPosition(name: string, i: int)
    requires ExtensionAt(name, i)
    ensures i == |name| - PlainSuffixLength(name) - 1
  {
  }

  /** `name.replace(/\.[^/.]+$/, "")`: the name without its extension, or the
      name itself when the pattern does not match. */
  function StripExtension(name: string): (r: string)
    ensures forall i :: ExtensionAt(name, i) ==> r == name[..i]
    ensures (forall i :: !ExtensionAt(name, i)) ==> r == name
  {
    var k := PlainSuffixLength(name);
    if 0 < k < |name| && name[|name| - k - 1] == '.' then
      assert ExtensionAt(name, |name| - k - 1);
      name[..|name| - k - 1]
    else
      assert forall i :: ExtensionAt(name, i) ==> i == |name| - k - 1 by {
        forall i | ExtensionAt(name, i) ensures i == |name| - k - 1 {
          ExtensionPosition(name, i);
        }
      }
      name
  }

  /** The archive entry name: `.png` in place of the final extension, or
      appended when there is none. */
  function OutputName(name: string): (r: string)
    ensures |r| >= |PngSuffix| && r[|r| - |PngSuffix|..] == PngSuffix
    ensures forall i :: ExtensionAt(name, i) ==> r == name[..i] + PngSuffix
    ensures (forall i :: !ExtensionAt(name, i)) ==> r == name + PngSuffix
  {
    var stem := StripExtension(name);
    assert (stem + PngSuffix)[|stem|..] == PngSuffix;
    stem + PngSuffix
  }

  /** Stripping the extension of an output name gives back the stem it was
      built from. */
  lemma StripOutputName(name: string)
    ensures StripExtension(OutputName(name)) == StripExtension(name)
  {
    var stem := StripExtension(name);
    var out := OutputName(name);
    assert out == stem + PngSuffix;
    assert ExtensionAt(out, |stem|);
  }

  /** Renaming an output name again changes nothing. */
  lemma OutputNameIdempotent(name: string)
    ensures OutputName(OutputName(name)) == OutputName(name)
  {
    StripOutputName(name);
  }

  /** The cut is at the LAST dot of the name: no dot follows it. */
  lemma StrippedAtLastDot(name: string)
    requires StripExtension(name) != name
    ensures |StripExtension(name)| < |name| && name[|StripExtension(name)|] == '.'
    ensures forall j :: |StripExtension(name)| < j < |name| ==> name[j] != '.'
  {
  }

  /** A name with a final extension keeps everything before its last dot. */
  lemma ExampleDottedStem()
    ensures OutputName("a.b.jpg") == "a.b.png"
  {
    assert ExtensionAt("a.b.jpg", 3);
  }

  /** A name without a dot gets `.png` appended. */
  lemma ExampleNoDot()
    ensures OutputName("name") == "name.png"
  {
  }

  /** A trailing dot is not an extension: the pattern needs at least one
      character after it. */
  lemma ExampleTrailingDot()
    ensures OutputName("name.") == "name..png"
  {
  }

  /** A name that is all extension, such as a hidden file, keeps nothing. */
  lemma ExampleHiddenFile()
    ensures OutputName(".profile") == ".png"
  {
    assert ExtensionAt(".profile", 0);
  }

  /** A dot before the last `/` is not an extension. */
  lemma ExampleDotInDirectory()
    ensures OutputName("photos.v2/face") == "photos.v2/face.png"
  {
    var name := "photos.v2/face";
    assert !IsExtensionChar(name[9]);
    assert PlainSuffixLength(name) == 4;
  }
}

=== FILE: geometry.dfy ===
/** Rectangles in image pixel space. Coordinates are exact reals: the
    floating-point rounding of the browser's numbers is not modelled. */
module Geometry {

  /** A face bounding box `{x, y, width, height}`, top-left corner plus extents. */
  datatype Box = Box(x: real, y: real, width: real, height: real)
  {
    /** The detector only ever reports boxes with positive extents. */
    predicate HasPositiveSize() {
      width > 0.0 && height > 0.0
    }
  }

  /** The pixel extents of an image. */
  datatype Dims = Dims(width: real, height: real)

  /** The box lies entirely within an image of extents `d`. */
  predicate Inside(b: Box, d: Dims) {
    0.0 <= b.x && b.x + b.width <= d.width && 0.0 <= b.y && b.y + b.height <= d.height
  }
}

=== FILE: orientation.dfy ===
/** The EXIF orientation correction applied to a detected face box before
    placement (frontend/src/App.js, inside `processImage`).

    The orientation tag is the one of CIPA DC-008 (tag 0x0112). Codes 2, 3 and
    4 reflect the box within the image; codes 5 to 8 swap the axes of both the
    box and the image. The formulas are the application's own, case by case:
    they are not re-derived from rotation geometry, and the lemmas below record
    what they do and do not satisfy. */
module Orientation {
  import opened Wrappers
  import opened Geometry

  /** A corrected box together with the corrected image extents. */
  datatype Oriented = Oriented(box: Box, dims: Dims)

  /** The codes whose correction exchanges the horizontal and vertical axes. */
  predicate SwapsAxes(code: int) {
    5 <= code <= 8
  }

  /** The code the switch sees: a missing tag, and every other falsy tag
      value (0), falls back to 1 through `|| 1`. */
  function OrientationCode(tag: Option<int>): (code: int)
    ensures tag.None? ==> code == 1
    ensures tag.Some? && tag.value != 0 ==> code == tag.value
    ensures tag == Some(0) ==> code == 1
  {
    match tag
    case None => 1
    case Some(t) => if t == 0 then 1 else t
  }

  /** The correction in closed form: every corrected quantity written in terms
      of the ORIGINAL box `b` and raw image extents `d`. Inside the application's
      cases 5 to 8 the box extents are exchanged before the corner is
      recomputed, so the extent that appears in a corner formula below is the
      other one from the one the application's variable name suggests. */
  function Corrected(b: Box, d: Dims, code: int): (r: Oriented)
    ensures SwapsAxes(code) ==>
      r.box.width == b.height && r.box.height == b.width && r.dims == Dims(d.height, d.width)
    ensures !SwapsAxes(code) ==>
      r.box.width == b.width && r.box.height == b.height && r.dims == d
    ensures b.HasPositiveSize() ==> r.box.HasPositiveSize()
    ensures !(2 <= code <= 8) ==> r == Oriented(b, d)
  {
    match code
    case 2 => Oriented(Box(d.width - (b.x + b.width), b.y, b.width, b.height), d)
    case 3 => Oriented(Box(d.width - (b.x + b.width), d.height - (b.y + b.height), b.width, b.height), d)
    case 4 => Oriented(Box(b.x, d.height - (b.y + b.height), b.width, b.height), d)
    case 5 => Oriented(Box(d.height - (b.y + b.width), b.x, b.height, b.width), Dims(d.height, d.width))
    case 6 => Oriented(Box(b.y, d.width - (b.x + b.height), b.height, b.width), Dims(d.height, d.width))
    case 7 => Oriented(Box(d.height - b.y, d.width - (b.x + b.height), b.height, b.width), Dims(d.height, d.width))
    case 8 => Oriented(Box(d.height - (b.y + b.width), b.x, b.height, b.width), Dims(d.height, d.width))
    case _ => Oriented(b, d)
  }

  /** The switch as the application runs it: six local variables updated in
      place, each destructuring `[a, b] = [e, f]` being a simultaneous
      assignment whose right-hand sides read the values from before it. */
  method Normalize(box: Box, dims: Dims, code: int) returns (corrected: Box, correctedDims: Dims)
    ensures Oriented(corrected, correctedDims) == Corrected(box, dims, code)
  {
    var x, y, width, height := box.x, box.y, box.width, box.height;
    var imgWidth, imgHeight := dims.width, dims.height;
    match code {
      case 2 =>
        x := imgWidth - (x + width);
      case 3 =>
        x := imgWidth - (x + width);
        y := imgHeight - (y + height);
      case 4 =>
        y := imgHeight - (y + height);
      case 5 =>
        width, height := height, width;
        x, y := imgHeight - (y + height), x;
        imgWidth, imgHeight := imgHeight, imgWidth;
      case 6 =>
        width, height := height, width;
        x, y := y, imgWidth - (x + width);
        imgWidth, imgHeight := imgHeight, imgWidth;
      case 7 =>
        width, height := height, width;
        x, y := imgHeight - y, imgWidth - (x + width);
        imgWidth, imgHeight := imgHeight, imgWidth;
      case 8 =>
        width, height := height, width;
        x, y := imgHeight - (y + height), x;
        imgWidth, imgHeight := imgHeight, imgWidth;
      case _ =>
    }
    corrected := Box(x, y, width, height);
    correctedDims := Dims(imgWidth, imgHeight);
  }

  /** Applies the correction for `code` to an already corrected pair. */
  function Reapply(o: Oriented, code: int): Oriented {
    Corrected(o.box, o.dims, code)
  }

  /** The reflections 2, 3 and 4 undo themselves. */
  lemma ReflectionsAreInvolutions(b: Box, d: Dims, code: int)
    requires 2 <= code <= 4
    ensures Reapply(Corrected(b, d, code), code) == Oriented(b, d)
  {
  }

  /** Cases 5 and 8 are the same correction. */
  lemma FiveAndEightAgree(b: Box, d: Dims)
    ensures Corrected(b, d, 5) == Corrected(b, d, 8)
  {
  }

  /** Cases 6 and 8, as written, undo each other in both orders. */
  lemma SixAndEightAreInverse(b: Box, d: Dims)
    ensures Reapply(Corrected(b, d, 6), 8) == Oriented(b, d)
    ensures Reapply(Corrected(b, d, 8), 6) == Oriented(b, d)
  {
  }

  /** Case 7 applied twice restores the extents but moves the corner by
      `(height, -width)`: it is not its own inverse. */
  lemma SevenTwiceShiftsCorner(b: Box, d: Dims)
    ensures Reapply(Corrected(b, d, 7), 7) ==
      Oriented(Box(b.x + b.height, b.y - b.width, b.width, b.height), d)
  {
  }

  /** Case 5 (and so 8) applied twice is not the identity: it restores the
      extents but reflects the corner through the image centre, so on a
      square box it coincides with the half turn of code 3. */
  lemma FiveTwiceReflectsCorner(b: Box, d: Dims)
    ensures Reapply(Corrected(b, d, 5), 5) ==
      Oriented(Box(d.width - (b.x + b.height), d.height - (b.y + b.width), b.width, b.height), d)
    ensures b.width == b.height ==> Reapply(Corrected(b, d, 5), 5) == Corrected(b, d, 3)
  {
  }

  /** Codes other than 5 to 8 keep a box that lies in the raw image inside
      the corrected image. */
  lemma ReflectionsKeepBoxInside(b: Box, d: Dims, code: int)
    requires !SwapsAxes(code)
    requires Inside(b, d)
    ensures Inside(Corrected(b, d, code).box, Corrected(b, d, code).dims)
  {
  }

  /** Codes 5, 6 and 8 keep a SQUARE box that lies in the raw image inside
      the corrected image. */
  lemma QuarterTurnsKeepSquareBoxInside(b: Box, d: Dims, code: int)
    requires code == 5 || code == 6 || code == 8
    requires b.width == b.height && Inside(b, d)
    ensures Inside(Corrected(b, d, code).box, Corrected(b, d, code).dims)
  {
  }

  /** A tall box near the right edge of a 100 x 200 image leaves the
      corrected image under code 6, a wide box near the bottom edge leaves it
      under codes 5 and 8, and a square box at the top edge leaves it under
      code 7. */
  lemma SomeBoxesLeaveCorrectedImage()
    ensures Inside(Box(90.0, 0.0, 10.0, 50.0), Dims(100.0, 200.0))
    ensures !Inside(Corrected(Box(90.0, 0.0, 10.0, 50.0), Dims(100.0, 200.0), 6).box,
                    Corrected(Box(90.0, 0.0, 10.0, 50.0), Dims(100.0, 200.0), 6).dims)
    ensures Inside(Box(0.0, 180.0, 50.0, 10.0), Dims(100.0, 200.0))
    ensures !Inside(Corrected(Box(0.0, 180.0, 50.0, 10.0), Dims(100.0, 200.0), 5).box,
                    Corrected(Box(0.0, 180.0, 50.0, 10.0), Dims(100.0, 200.0), 5).dims)
    ensures !Inside(Corrected(Box(0.0, 180.0, 50.0, 10.0), Dims(100.0, 200.0), 8).box,
                    Corrected(Box(0.0, 180.0, 50.0, 10.0), Dims(100.0, 200.0), 8).dims)
    ensures Inside(Box(10.0, 0.0, 20.0, 20.0), Dims(100.0, 200.0))
    ensures !Inside(Corrected(Box(10.0, 0.0, 20.0, 20.0), Dims(100.0, 200.0), 7).box,
                    Corrected(Box(10.0, 0.0, 20.0, 20.0), Dims(100.0, 200.0), 7).dims)
  {
  }
}

=== FILE: wrappers.dfy ===
/** Option and Result, for the absent face box, the absent orientation tag
    and the per-image error path. */
module Wrappers {

  datatype Option<+T> = None | Some(value: T)

  datatype Result<+T, +E> = Success(value: T) | Failure(error: E)
}
